=== FILE: README.md ===
# Support-ticket chat, modelled in Dafny

This project models the chat part of a two-party support-ticket system. An
anonymous end user and a logged-in agent exchange messages on a "feedback"
ticket. Each side keeps a "last seen" receipt, and an agent pages through the
list of tickets and closes them. The model covers four pieces:

- `TicketView` (`ticket_view.dfy`) is the chat view of one ticket. It is a
  class whose fields are the component's state. It has one method per event
  handler: the REST snapshot on mount, live message and "seen" pushes, socket
  errors, failed seen updates, input changes, sending, and the two outcomes of
  a post. Each handler states the whole new state as an update of the old one
  (`State() == old(State()).(...)`). Each handler also keeps the invariant
  `Valid()`: `latestAuthorName` names the author of the last message shown, and
  `seen` is only ever true for a message the current user wrote. The pure
  helpers are `IsSeen`, `ResolveAuthorName`, `ResolveCurrentUser`, the choice
  of read-receipt column, and `String.prototype.includes`, proved to hold exactly when the text occurs.
- `ChatRelay` (`chat_relay.dfy`) is the server's handler for a chat message
  sent over the live channel. The function `Relay` specifies the reaction to
  an event that carries a payload: the ordered steps (persist, emit) and the
  row added to the message log. It emits exactly once. The function `Handle`
  adds the event without a payload, which throws at the destructuring before
  the `try` and emits nothing. The method `Server.OnChatEvent` is proved equal
  to `Handle`.
- `TicketList` (`ticket_list.dfy`) is the agent's ticket list. It covers the
  page numbers computed with an integer ceiling, pages cut with JavaScript's
  `slice` semantics, the in-place reversal of the response, and closing one
  row in place. Rows are objects shared between the full list and the current
  page, so closing a row shows in both, as in the source.
- `FeedbackSubmission` (`feedback_submission.dfy`) is the page that opens a
  ticket. It is a state machine over four flags and the text, plus a rendering
  rule that lists the components shown.

Timestamps are integers in milliseconds. Some collaborators are not part of
this model: `validateInputMessage`, `getCurrentUser`, the constants
`ANONYMOUS_USER`, `DEFAULT_USERNAME` and `DEFAULT_USER_ID`, `postMessage` and
`models.Feedback.findById`. They appear as uninterpreted inputs:
- constructor parameters stored as constants of the view;
- the `post` outcome parameter of the relay;
- the ticket store map.

## Model

| member | source | states |
|---|---|---|
| `TicketView.IsSeen` | frontend/src/components/common/FeedbackTicket.jsx:132-145 | true exactly when the other party's receipt is not older than the message and the latest author is the current user; false in every other case |
| `TicketView.IsSeenStable` | frontend/src/components/common/FeedbackTicket.jsx:132-145 | a seen message stays seen when the other party's last-seen time moves forward |
| `TicketView.IsSeenOnlyForOwnMessage` | frontend/src/components/common/FeedbackTicket.jsx:132-145 | `isSeen` is false whenever the latest author is not the current user |
| `TicketView.IsSeenNeedsFreshReceipt` | frontend/src/components/common/FeedbackTicket.jsx:132-145 | `isSeen` is false whenever the receipt is older than the message |
| `TicketView.ResolveAuthorName` | frontend/src/components/common/FeedbackTicket.jsx:61-63 | the author's name is the message's user's name, or the anonymous user's name when the user is absent |
| `TicketView.MountSeenField` | frontend/src/components/common/FeedbackTicket.jsx:157-159 | on mount a non-default user reads the anonymous party's receipt column, and the default user reads the user column |
| `TicketView.SeenPayloadKey` | frontend/src/components/common/FeedbackTicket.jsx:184-188 | the seen update writes the user column for a non-default user and the anonymous column for the default user, which is never the column the same user reads on mount |
| `TicketView.SeenColumnsCross` | frontend/src/components/common/FeedbackTicket.jsx:157-159 | between a named user and the default user, each reads on mount exactly the column the other writes |
| `TicketView.Includes` | frontend/src/components/common/FeedbackTicket.jsx:216 | `includes` holds exactly when the text occurs at some position of the message |
| `TicketView.FeedbackTicket.constructor` | frontend/src/components/common/FeedbackTicket.jsx:40-55 | the initial state: no messages, empty texts, empty user, all flags false, the invariant holds |
| `TicketView.FeedbackTicket.ResolveCurrentUser` | frontend/src/components/common/FeedbackTicket.jsx:57-59 | the logged-in user, or the anonymous user when nobody is logged in |
| `TicketView.FeedbackTicket.UpdateMountState` | frontend/src/components/common/FeedbackTicket.jsx:147-165 | needs a non-empty snapshot; installs it and the given user, takes the latest author from the last message, computes `seen` from the anonymous receipt for a named user and from the user receipt for the default user, clears the error, connects the socket; nothing else changes |
| `TicketView.FeedbackTicket.UpdateSeenInfo` | frontend/src/components/common/FeedbackTicket.jsx:180-193 | the seen request names this ticket, the given time and the current user's own column, never the column that user reads on mount |
| `TicketView.FeedbackTicket.ComponentDidMount` | frontend/src/components/common/FeedbackTicket.jsx:167-178 | mounting applies the whole mount-state update for the current user (snapshot, latest author, `seen` from the other party's column, socket connected, error cleared; the input, the submitting flag and the author flag are kept), establishes the invariant and sends the seen update |
| `TicketView.FeedbackTicket.OnChatMessageReceived` | frontend/src/components/common/FeedbackTicket.jsx:77-89 | before this client has posted, the push is appended at the end, earlier messages stay in order, `seen` and `isMessageSubmitting` become false and the latest author is the push's; afterwards the state is unchanged |
| `TicketView.FeedbackTicket.OnChatErrorReceived` | frontend/src/components/common/FeedbackTicket.jsx:96-99 | an error push disconnects the socket and unlocks the input; nothing else changes |
| `TicketView.FeedbackTicket.OnSeenReceived` | frontend/src/components/common/FeedbackTicket.jsx:104-113 | sets `seen` to true exactly when the pusher is not the current user and the current user wrote the latest message; otherwise nothing changes |
| `TicketView.FeedbackTicket.OnEmitSeenError` | frontend/src/components/common/FeedbackTicket.jsx:119-121 | disconnects the socket; nothing else changes |
| `TicketView.FeedbackTicket.OnUpdateSeenError` | frontend/src/components/common/FeedbackTicket.jsx:215-220 | a message containing "Failed to fetch" changes nothing; any other message becomes the error |
| `TicketView.FeedbackTicket.OnInputChange` | frontend/src/components/common/FeedbackTicket.jsx:307 | only the input text changes |
| `TicketView.FeedbackTicket.OnSendMessage` | frontend/src/components/common/FeedbackTicket.jsx:222-238 | empty input: nothing sent or changed; rejected input: only the error is set and nothing is sent; otherwise only `isMessageSubmitting` becomes true and the text is posted with author id "" for the default user id and the user's id otherwise |
| `TicketView.FeedbackTicket.WithAuthor` | frontend/src/components/common/FeedbackTicket.jsx:242 | a posted message without a user gets exactly the anonymous user as its user and is otherwise unchanged; a message with a user is kept as it is; the displayed author name is the same either way |
| `TicketView.FeedbackTicket.OnPostFeedbackMessageSuccess` | frontend/src/components/common/FeedbackTicket.jsx:240-255 | appends exactly the defaulted message and emits it, clears the input, marks this client as author, resets `seen` and unlocks the input |
| `TicketView.FeedbackTicket.OnPostFeedbackMessageError` | frontend/src/components/common/FeedbackTicket.jsx:257-259 | messages unchanged; only the error is set and the input unlocked |
| `ChatRelay.Relay` | backend/src/sockets/events/chat.js:5-16 | exactly one emission, as the last step; persistence is attempted once, and only for an existing open ticket; a row is stored exactly when the ticket is open and persistence succeeds; the broadcast goes to the ticket's channel exactly when a row was stored; every error goes to the sender's channel |
| `ChatRelay.ExactlyOneEmission` | backend/src/sockets/events/chat.js:11-14 | each chat event that carries a payload emits once, either the message or an error, never both |
| `ChatRelay.Handle` | backend/src/sockets/events/chat.js:5-7 | a missing payload throws at the destructuring before the `try`, so nothing is persisted or emitted; a present payload gets exactly the relay's reaction |
| `ChatRelay.EmitsOnceIffPayload` | backend/src/sockets/events/chat.js:6-14 | an event emits exactly once when it carries a payload and not at all when it does not |
| `ChatRelay.MissingTicketRejected` | backend/src/sockets/events/chat.js:8-9 | a missing ticket gives only "Error: Feedback does not exist" on the sender's channel and stores nothing |
| `ChatRelay.ClosedTicketRejected` | backend/src/sockets/events/chat.js:10 | a closed ticket gives only "Error: This case is closed" on the sender's channel and stores nothing |
| `ChatRelay.NoErrorOnTicketChannel` | backend/src/sockets/events/chat.js:12-14 | when sender and ticket ids differ, nothing but a broadcast message is emitted on the ticket's channel |
| `ChatRelay.Server.OnChatEvent` | backend/src/sockets/events/chat.js:5-16 | the handler leaves the ticket store alone, appends exactly the stored row to the log, and performs the steps of `Handle`, none for a missing payload |
| `TicketList.CeilDiv` | frontend/src/pages/Feedbacks.jsx:29 | the least page count whose pages hold all rows; zero exactly for no rows |
| `TicketList.PageNumbers` | frontend/src/pages/Feedbacks.jsx:29-31 | the numbers 1 to count in increasing order |
| `TicketList.SliceBound` | frontend/src/pages/Feedbacks.jsx:69-72 | a slice bound lands in `[0, len]` and is the index itself when already in range |
| `TicketList.Slice` | frontend/src/pages/Feedbacks.jsx:69-72 | `slice` gives the consecutive elements from the normalised start up to the normalised end, in order, and nothing when the end does not lie past the start |
| `TicketList.Page` | frontend/src/pages/Feedbacks.jsx:65-72 | a page is the slice from `(page-1)*itemsPerPage` to `page*itemsPerPage`; it never holds more than `itemsPerPage` rows, and page 0 is empty |
| `TicketList.PageContents` | frontend/src/pages/Feedbacks.jsx:65-73 | a page from 1 on is the rows between `(page-1)*itemsPerPage` and `page*itemsPerPage`, cut at the end, in order, at most `itemsPerPage` of them |
| `TicketList.PageNonEmptyIff` | frontend/src/pages/Feedbacks.jsx:27-33 | page 0 is empty, and page `p >= 1` is non-empty exactly when `p <= ceil(n / itemsPerPage)`; pages past the end are empty |
| `TicketList.PagesPrefix` | frontend/src/pages/Feedbacks.jsx:65-73 | pages 1 to `c` laid end to end are the first `c*itemsPerPage` rows |
| `TicketList.PagesReassemble` | frontend/src/pages/Feedbacks.jsx:27-33 | the pages of all listed page numbers, laid end to end, are exactly the list |
| `TicketList.RowOnExactlyOnePage` | frontend/src/pages/Feedbacks.jsx:65-73 | row `i` is on page `i / itemsPerPage + 1`, which is listed, at offset `i % itemsPerPage`, and on no other page |
| `TicketList.Reversed` | frontend/src/pages/Feedbacks.jsx:45 | the reversed list has the same length and row `i` is the old row `n-1-i` |
| `TicketList.ReversedTwice` | frontend/src/pages/Feedbacks.jsx:45 | reversing twice gives back the list |
| `TicketList.ReversedSameRows` | frontend/src/pages/Feedbacks.jsx:45 | reversal keeps the same rows, counted with multiplicity |
| `TicketList.ReverseInPlace` | frontend/src/pages/Feedbacks.jsx:45 | the array afterwards holds its old contents reversed |
| `TicketList.FindIndex` | frontend/src/pages/Feedbacks.jsx:60 | the first index whose row has the id, or -1 exactly when no row has it |
| `TicketList.ValidatePage` | frontend/src/pages/Feedbacks.jsx:35-40 | the test looks at the unbound name `currentPage`, which is never a number, so the fallback 1 is returned whatever page the query names and the `return page` branch is never taken |
| `TicketList.FeedbacksPage.constructor` | frontend/src/pages/Feedbacks.jsx:9-15 | no rows, no page numbers, page 1 |
| `TicketList.FeedbacksPage.CalcTotalPages` | frontend/src/pages/Feedbacks.jsx:27-33 | appends `1 .. ceil(n / itemsPerPage)` to the existing page numbers, so a second call lists them again; only `totalPages` changes |
| `TicketList.FeedbacksPage.OnPageChange` | frontend/src/pages/Feedbacks.jsx:65-74 | the current page is `page` and its rows are that page's slice of the full list; nothing else changes |
| `TicketList.FeedbacksPage.OnGetFeedbackSuccess` | frontend/src/pages/Feedbacks.jsx:42-49 | the response is reversed in place and kept, page numbers for its length are appended, and page 1 is shown |
| `TicketList.FeedbacksPage.FeedbackClosed` | frontend/src/pages/Feedbacks.jsx:58-63 | needs the id on the current page; the first row with it becomes closed, every other row keeps its flag, the full list sees the change, and closing a closed row changes nothing |
| `FeedbackSubmission.Render` | frontend/src/pages/Feedback.jsx:66-85 | exactly one main view: the spinner when submitting, the result when submitted and not submitting, the form otherwise; the modal exactly when confirmation is shown |
| `FeedbackSubmission.AnsweredShowsResult` | frontend/src/pages/Feedback.jsx:66-77 | once answered and not submitting, the result is the only main view |
| `FeedbackSubmission.FeedbackPage.constructor` | frontend/src/pages/Feedback.jsx:9-16 | all flags false and both texts empty |
| `FeedbackSubmission.FeedbackPage.View` | frontend/src/pages/Feedback.jsx:55-89 | the page renders the components `Render` gives for its state |
| `FeedbackSubmission.FeedbackPage.OnModalClose` | frontend/src/pages/Feedback.jsx:21 | only `isConfirmationShown` changes, to false |
| `FeedbackSubmission.FeedbackPage.OnFeedbackChange` | frontend/src/pages/Feedback.jsx:26-28 | only the text changes |
| `FeedbackSubmission.FeedbackPage.OnNext` | frontend/src/pages/Feedback.jsx:30-33 | only `isConfirmationShown` changes, to true |
| `FeedbackSubmission.FeedbackPage.OnSubmitFeedback` | frontend/src/pages/Feedback.jsx:35-41 | the modal closes, submitting starts, and `{data: feedback}` is sent with the current text |
| `FeedbackSubmission.FeedbackPage.OnFeedbackSentSuccessfully` | frontend/src/pages/Feedback.jsx:43-45 | submitting stops and the page is submitted; the error text is untouched |
| `FeedbackSubmission.FeedbackPage.OnFeedbackError` | frontend/src/pages/Feedback.jsx:47-53 | submitting stops, the page is submitted, and the error's message is kept for the result |

## Left out

- Socket transport: connecting, disconnecting, subscriptions and `io.sockets.emit` are library I/O. The relay returns its emissions as steps. The view's socket is a connected flag.
- Asynchrony: each handler is one atomic step, and the ordering between REST answers and live pushes is not modelled. This includes the promise chain of the seen update. In that chain, the handler after `.catch` also runs after a failure, and its error ends in `onEmitSeenError`. `OnUpdateSeenError` and `OnEmitSeenError` are modelled as separate steps.
- `onFocus`, `scrollToBottom`, `onUpdateSeenSuccess` and the window listeners: they only trigger I/O or scrolling. `onFocus` sends the same request as `UpdateSeenInfo`.
- Rendering of the chat view (JSX, `dateformat`, disabling the input for a closed ticket) and parsing of date strings. Timestamps are integers.
- `getCurrentUser` is taken to return the same value for as long as a view is open.
- `validateInputMessage`, `postMessage`, `models.Feedback.findById` and the user constants are not part of this model and stay uninterpreted. A failing `findById` (a database error) is not modelled.
- Aliasing between the view's `messages` and the `messages` prop it was mounted with: the model keeps its own sequence.
- Page numbers clicked in the list reach `onPageChange` as the string `e.target.id` (frontend/src/components/common/FeedbackList.jsx:44). The source coerces that string in `page * itemsPerPage` and stores the string itself as `currentPage`. The model takes and stores an integer page.
- `onGetFeedbackError`, the retry and alert path of the list, and the context components (list items, sign-up form, HTTP wrappers, routes).
- TicketList.FeedbacksPage.FeedbackClosed: requires the id to be on the current page, because the source would write through index -1 and fault; its only caller passes the id of a row it displays.
- ChatRelay.Handle: a missing payload is modelled as emitting nothing. The rejected promise it leaves is not modelled; without a process-level handler, Node 15 and later end the server process on it. A payload object that lacks some of `feedbackId`, `userId` and `text` is not modelled either: the model's event always carries all three.

=== FILE: chat_relay.dfy ===
/**
 * The server's handler for a chat message sent over the live channel
 * (chat.js): look the ticket up, refuse a missing or closed one, persist the
 * message, then broadcast it on the ticket's channel; every failure is sent to
 * the sender's own channel instead. An event without a payload throws before
 * any of this and emits nothing.
 */
module ChatRelay {
  import opened Wrappers

  /** The `{feedbackId, userId, text}` payload of a chat event. */
  datatype ChatEvent = ChatEvent(feedbackId: string, userId: string, text: string)

  /** The part of a stored ticket the handler consults. */
  datatype FeedbackRow = FeedbackRow(isClosed: bool)

  /** A message row as the persistence collaborator hands it back. */
  datatype StoredMessage = StoredMessage(id: string, feedbackId: string, userId: string, text: string)

  /** What the persistence collaborator does when it is called: return the created row, or throw. */
  datatype PostOutcome = Created(message: StoredMessage) | Failed(description: string)

  datatype Payload = Broadcast(message: StoredMessage) | ErrorText(text: string)

  /** One observable step of the handler, in the order it happens. */
  datatype Step =
    | Persist(feedbackId: string, userId: string, text: string)
    | Emit(channel: string, payload: Payload)

  /** What one chat event did: its steps, and the row it added to the message log. */
  datatype Reaction = Reaction(steps: seq<Step>, stored: Option<StoredMessage>)

  /** The `toString()` of the two errors the handler throws itself. */
  const NotFoundError := "Error: Feedback does not exist"
  const ClosedError := "Error: This case is closed"

  /** The ticket exists and is still open. */
  predicate IsOpen(store: map<string, FeedbackRow>, id: string)
  {
    id in store && !store[id].isClosed
  }

  /**
   * The handler's reaction to one chat event. It ends with exactly one
   * emission; the message is persisted only on an open ticket; the broadcast
   * goes to the ticket's channel exactly when a row was stored, and every
   * error goes to the sender's channel.
   */
  function Relay(store: map<string, FeedbackRow>, e: ChatEvent, post: PostOutcome): (r: Reaction)
    ensures |r.steps| > 0 && r.steps[|r.steps| - 1].Emit?
    ensures forall i :: 0 <= i < |r.steps| - 1 ==> r.steps[i] == Persist(e.feedbackId, e.userId, e.text)
    ensures |r.steps| <= 2
    ensures (|r.steps| == 2) <==> IsOpen(store, e.feedbackId)
    ensures r.stored.Some? <==> IsOpen(store, e.feedbackId) && post.Created?
    ensures r.stored.Some? ==> r.stored.value == post.message
    ensures r.steps[|r.steps| - 1].payload.Broadcast? <==> r.stored.Some?
    ensures r.steps[|r.steps| - 1].payload.Broadcast? ==>
      r.steps[|r.steps| - 1] == Emit(e.feedbackId, Broadcast(r.stored.value))
    ensures r.steps[|r.steps| - 1].payload.ErrorText? ==> r.steps[|r.steps| - 1].channel == e.userId
  {
    if e.feedbackId !in store then
      Reaction([Emit(e.userId, ErrorText(NotFoundError))], None)
    else if store[e.feedbackId].isClosed then
      Reaction([Emit(e.userId, ErrorText(ClosedError))], None)
    else
      var persist := Persist(e.feedbackId, e.userId, e.text);
      match post
      case Created(m) => Reaction([persist, Emit(e.feedbackId, Broadcast(m))], Some(m))
      case Failed(d) => Reaction([persist, Emit(e.userId, ErrorText(d))], None)
  }

  /** The number of emissions among `steps`. */
  function Emissions(steps: seq<Step>): nat
  {
    if steps == [] then 0 else (if steps[0].Emit? then 1 else 0) + Emissions(steps[1..])
  }

  /** Every chat event produces exactly one emission. */
  lemma ExactlyOneEmission(store: map<string, FeedbackRow>, e: ChatEvent, post: PostOutcome)
    ensures Emissions(Relay(store, e, post).steps) == 1
  {
    var steps := Relay(store, e, post).steps;
    if |steps| == 2 {
      assert steps[1..] == [steps[1]];
      assert Emissions(steps[1..][1..]) == 0;
    } else {
      assert steps[1..] == [];
    }
  }

  /**
   * The handler applied to whatever payload arrived. `None` stands for a
   * missing payload (`undefined` or `null`): destructuring it throws before
   * the `try`, so nothing is looked up, persisted or emitted. A payload that
   * is present gets the relay's reaction.
   */
  function Handle(store: map<string, FeedbackRow>, data: Option<ChatEvent>, post: PostOutcome): (r: Reaction)
    ensures data.None? ==> r.steps == [] && r.stored.None?
    ensures data.Some? ==> r == Relay(store, data.value, post)
  {
    match data
    case None => Reaction([], None)
    case Some(e) => Relay(store, e, post)
  }

  /** A chat event emits exactly once when it carries a payload, and never otherwise. */
  lemma EmitsOnceIffPayload(store: map<string, FeedbackRow>, data: Option<ChatEvent>, post: PostOutcome)
    ensures Emissions(Handle(store, data, post).steps) == 1 <==> data.Some?
    ensures Emissions(Handle(store, data, post).steps) == 0 <==> data.None?
  {
    if data.Some? {
      ExactlyOneEmission(store, data.value, post);
    }
  }

  /** A missing ticket: one error to the sender, nothing persisted. */
  lemma MissingTicketRejected(store: map<string, FeedbackRow>, e: ChatEvent, post: PostOutcome)
    requires e.feedbackId !in store
    ensures Relay(store, e, post) == Reaction([Emit(e.userId, ErrorText(NotFoundError))], None)
  {
  }

  /** A closed ticket: one error to the sender, nothing persisted. */
  lemma ClosedTicketRejected(store: map<string, FeedbackRow>, e: ChatEvent, post: PostOutcome)
    requires e.feedbackId in store && store[e.feedbackId].isClosed
    ensures Relay(store, e, post) == Reaction([Emit(e.userId, ErrorText(ClosedError))], None)
  {
  }

  /**
   * When the senders' channels and the tickets' channels are distinct names,
   * no error text is ever emitted on a ticket's channel.
   */
  lemma NoErrorOnTicketChannel(store: map<string, FeedbackRow>, e: ChatEvent, post: PostOutcome)
    requires e.userId != e.feedbackId
    ensures forall s :: s in Relay(store, e, post).steps && s.Emit? && s.channel == e.feedbackId ==>
      s.payload.Broadcast?
  {
  }

  /** The server side: the ticket store and the message log it appends to. */
  class Server {
    var feedbacks: map<string, FeedbackRow>
    var messages: seq<StoredMessage>

    constructor (feedbacks: map<string, FeedbackRow>, messages: seq<StoredMessage>)
      ensures this.feedbacks == feedbacks && this.messages == messages
    {
      this.feedbacks := feedbacks;
      this.messages := messages;
    }

    /**
     * Handles one chat event. `post` is what the persistence collaborator
     * does if it is called. The store never changes; the log grows by the
     * stored row, if any; the returned steps are those of `Handle`.
     */
    method OnChatEvent(data: Option<ChatEvent>, post: PostOutcome) returns (steps: seq<Step>)
      modifies this
      ensures feedbacks == old(feedbacks)
      ensures steps == Handle(old(feedbacks), data, post).steps
      ensures messages == old(messages) +
        (match Handle(old(feedbacks), data, post).stored case Some(m) => [m] case None => [])
    {
      if data.None? {
        return [];
      }
      var e := data.value;
      if e.feedbackId !in feedbacks {
        return [Emit(e.userId, ErrorText(NotFoundError))];
      }
      var row := feedbacks[e.feedbackId];
      if row.isClosed {
        return [Emit(e.userId, ErrorText(ClosedError))];
      }
      steps := [Persist(e.feedbackId, e.userId, e.text)];
      match post {
        case Created(m) =>
          messages := messages + [m];
          steps := steps + [Emit(e.feedbackId, Broadcast(m))];
        case Failed(d) =>
          steps := steps + [Emit(e.userId, ErrorText(d))];
      }
    }
  }
}

=== FILE: feedback_submission.dfy ===
/**
 * The page where an anonymous user opens a ticket (Feedback.jsx): a form, a
 * confirmation modal, a spinner while the ticket is submitted, and the
 * result once the server has answered.
 */
module FeedbackSubmission {

  /** A snapshot of every field of the page's component state. */
  datatype FormState = FormState(
    isSubmitting: bool,
    isConfirmationShown: bool,
    isSubmited: bool,
    submitError: string,
    feedback: string)

  /** The body sent to the ticket-creation endpoint. */
  datatype Submission = Submission(data: string)

  /** The components the page renders. */
  datatype Element =
    | Spinner
    | ResultView(submitResult: string)
    | FormView(value: string)
    | ConfirmationModal
  {
    /** The spinner, the result and the form take the page's main place. */
    predicate IsMainView()
    {
      !ConfirmationModal?
    }
  }

  /**
   * The components the page renders for a state, in order: the spinner while
   * submitting; otherwise the result once submitted, else the form; then the
   * modal while confirmation is shown. Exactly one main view is rendered.
   */
  function Render(s: FormState): (page: seq<Element>)
    ensures exists i :: 0 <= i < |page| && page[i].IsMainView()
    ensures forall i, j :: 0 <= i < j < |page| && page[i].IsMainView() ==> !page[j].IsMainView()
    ensures Spinner in page <==> s.isSubmitting
    ensures ResultView(s.submitError) in page <==> !s.isSubmitting && s.isSubmited
    ensures FormView(s.feedback) in page <==> !s.isSubmitting && !s.isSubmited
    ensures ConfirmationModal in page <==> s.isConfirmationShown
  {
    var spinner := if s.isSubmitting then [Spinner] else [];
    var body := if s.isSubmitting then []
                else if s.isSubmited then [ResultView(s.submitError)]
                else [FormView(s.feedback)];
    var modal := if s.isConfirmationShown then [ConfirmationModal] else [];
    assert (spinner + body + modal)[0].IsMainView();
    spinner + body + modal
  }

  class FeedbackPage {
    var isSubmitting: bool
    var isConfirmationShown: bool
    var isSubmited: bool
    var submitError: string
    var feedback: string

    ghost function State(): FormState
      reads this
    {
      FormState(isSubmitting, isConfirmationShown, isSubmited, submitError, feedback)
    }

    /** Nothing is submitting, shown or submitted, and the texts are empty. */
    constructor ()
      ensures State() == FormState(false, false, false, "", "")
    {
      isSubmitting := false;
      isConfirmationShown := false;
      isSubmited := false;
      submitError := "";
      feedback := "";
    }

    /** What the page shows now. */
    function View(): (page: seq<Element>)
      reads this
      ensures page == Render(State())
    {
      Render(FormState(isSubmitting, isConfirmationShown, isSubmited, submitError, feedback))
    }

    /** The modal was closed. */
    method OnModalClose()
      modifies this
      ensures State() == old(State()).(isConfirmationShown := false)
    {
      isConfirmationShown := false;
    }

    /** The text of the form changed. */
    method OnFeedbackChange(value: string)
      modifies this
      ensures State() == old(State()).(feedback := value)
    {
      feedback := value;
    }

    /** The form asks for confirmation. */
    method OnNext()
      modifies this
      ensures State() == old(State()).(isConfirmationShown := true)
    {
      isConfirmationShown := true;
    }

    /** Confirmed: the modal closes, the spinner starts, the current text is submitted. */
    method OnSubmitFeedback() returns (request: Submission)
      modifies this
      ensures request == Submission(old(feedback))
      ensures State() == old(State()).(isConfirmationShown := false, isSubmitting := true)
    {
      isConfirmationShown := false;
      isSubmitting := true;
      request := Submission(feedback);
    }

    /** The ticket was created. */
    method OnFeedbackSentSuccessfully()
      modifies this
      ensures State() == old(State()).(isSubmitting := false, isSubmited := true)
    {
      isSubmitting := false;
      isSubmited := true;
    }

    /** The submission failed: the result view shows the error's message. */
    method OnFeedbackError(message: string)
      modifies this
      ensures State() == old(State()).(isSubmitting := false, isSubmited := true, submitError := message)
    {
      isSubmitting := false;
      isSubmited := true;
      submitError := message;
    }
  }

  /**
   * Once the server has answered, either way, the page shows the result and
   * never the form or the spinner, whatever the modal does.
   */
  lemma AnsweredShowsResult(s: FormState)
    requires s.isSubmited && !s.isSubmitting
    ensures ResultView(s.submitError) in Render(s)
    ensures forall e :: e in Render(s) && e.IsMainView() ==> e == ResultView(s.submitError)
  {
  }
}

=== FILE: ticket_list.dfy ===
/**
 * The agent's ticket list (Feedbacks.jsx): the whole response reversed in
 * place, cut into pages of `itemsPerPage` rows, the list of page numbers, and
 * closing one row of the current page.
 */
module TicketList {
  /** A row of the list. Rows are shared between the full list and the current page. */
  class TicketRow {
    const id: string
    var isClosed: bool

    constructor (id: string, isClosed: bool)
      ensures this.id == id && this.isClosed == isClosed
    {
      this.id := id;
      this.isClosed := isClosed;
    }
  }

  function Min(a: int, b: int): int
  {
    if a <= b then a else b
  }

  lemma MulMonotone(a: int, b: int, k: nat)
    requires a <= b
    ensures a * k <= b * k
  {
    assert b * k - a * k == (b - a) * k;
  }

  /** `Math.ceil(n / perPage)`: the least number of pages that holds `n` rows. */
  function CeilDiv(n: nat, perPage: nat): (c: nat)
    requires perPage > 0
    ensures c * perPage >= n
    ensures c > 0 ==> (c - 1) * perPage < n
    ensures n == 0 <==> c == 0
  {
    var c := (n + perPage - 1) / perPage;
    assert (n + perPage - 1) == c * perPage + (n + perPage - 1) % perPage;
    assert (c - 1) * perPage == c * perPage - perPage;
    c
  }

  /** The page numbers `1, 2, ..., count`. */
  function PageNumbers(count: nat): (r: seq<int>)
    ensures |r| == count
    ensures forall i :: 0 <= i < count ==> r[i] == i + 1
  {
    if count == 0 then [] else PageNumbers(count - 1) + [count]
  }

  /** A bound of JavaScript's `slice`: a negative one counts from the end; then clamped to `[0, len]`. */
  function SliceBound(i: int, len: nat): (b: nat)
    ensures b <= len
    ensures 0 <= i <= len ==> b == i
    ensures i > len ==> b == len
  {
    if i < 0 then (if len + i < 0 then 0 else len + i)
    else if i > len then len
    else i
  }

  /**
   * JavaScript's `Array.prototype.slice(start, end)`: the run of consecutive
   * elements from the normalised start up to the normalised end, in order,
   * and empty when the end does not lie past the start.
   */
  function Slice<T>(s: seq<T>, start: int, end: int): (r: seq<T>)
    ensures |r| == (if SliceBound(start, |s|) < SliceBound(end, |s|)
                    then SliceBound(end, |s|) - SliceBound(start, |s|) else 0)
    ensures forall k :: 0 <= k < |r| ==> r[k] == s[SliceBound(start, |s|) + k]
  {
    var a := SliceBound(start, |s|);
    var b := SliceBound(end, |s|);
    if a < b then s[a..b] else []
  }

  /**
   * The rows shown on page `page`: the slice from `(page - 1) * perPage` to
   * `page * perPage`; never more than `perPage` rows, and none on page 0.
   */
  function Page<T>(s: seq<T>, page: int, perPage: nat): (r: seq<T>)
    ensures |r| <= perPage
    ensures page == 0 ==> r == []
  {
    var last := page * perPage;
    Slice(s, last - perPage, last)
  }

  /**
   * A page numbered from 1 holds the rows between its two bounds, cut off at
   * the end of the list, in their original order; at most `perPage` of them.
   */
  lemma PageContents<T>(s: seq<T>, page: int, perPage: nat)
    requires page >= 1 && perPage > 0
    ensures Min((page - 1) * perPage, |s|) <= Min(page * perPage, |s|)
    ensures Page(s, page, perPage) == s[Min((page - 1) * perPage, |s|)..Min(page * perPage, |s|)]
    ensures |Page(s, page, perPage)| <= perPage
  {
  }

  /** Page 0 is empty, and a page from 1 on is non-empty exactly up to the last page number. */
  lemma PageNonEmptyIff<T>(s: seq<T>, page: int, perPage: nat)
    requires page >= 0 && perPage > 0
    ensures Page(s, page, perPage) != [] <==> 1 <= page <= CeilDiv(|s|, perPage)
  {
    var c := CeilDiv(|s|, perPage);
    if page == 0 {
      assert Page(s, page, perPage) == [];
    } else {
      PageContents(s, page, perPage);
      MulMonotone(page - 1, page, perPage);
      if page <= c {
        MulMonotone(page - 1, c - 1, perPage);
      } else {
        MulMonotone(c, page - 1, perPage);
      }
    }
  }

  /** Pages `1 .. count` laid end to end. */
  function Pages<T>(s: seq<T>, perPage: nat, count: nat): seq<T>
  {
    if count == 0 then [] else Pages(s, perPage, count - 1) + Page(s, count, perPage)
  }

  lemma {:induction false} PagesPrefix<T>(s: seq<T>, perPage: nat, count: nat)
    requires perPage > 0
    ensures Pages(s, perPage, count) == s[..Min(count * perPage, |s|)]
  {
    if count > 0 {
      PagesPrefix(s, perPage, count - 1);
      PageContents(s, count, perPage);
      var lo, hi := Min((count - 1) * perPage, |s|), Min(count * perPage, |s|);
      assert s[..lo] + s[lo..hi] == s[..hi];
    }
  }

  /** The pages listed by the page numbers, laid end to end, give back the whole list. */
  lemma PagesReassemble<T>(s: seq<T>, perPage: nat)
    requires perPage > 0
    ensures Pages(s, perPage, CeilDiv(|s|, perPage)) == s
  {
    PagesPrefix(s, perPage, CeilDiv(|s|, perPage));
    assert s[..|s|] == s;
  }

  /** Row `i` lies within the bounds of page `i / perPage + 1`. */
  lemma RowPageBounds(perPage: nat, i: nat)
    requires perPage > 0
    ensures (i / perPage) * perPage <= i < (i / perPage) * perPage + perPage
  {
    assert i == (i / perPage) * perPage + i % perPage;
  }

  /** The bounds of page `page` contain row `i` exactly when `page == i / perPage + 1`. */
  lemma RowPageUnique(perPage: nat, i: nat, page: int)
    requires perPage > 0 && page >= 1
    ensures (page - 1) * perPage <= i < page * perPage <==> page == i / perPage + 1
  {
    var q := i / perPage;
    RowPageBounds(perPage, i);
    assert page * perPage == (page - 1) * perPage + perPage;
    if page < q + 1 {
      MulMonotone(page, q, perPage);
    } else if page > q + 1 {
      MulMonotone(q + 1, page - 1, perPage);
      assert (q + 1) * perPage == q * perPage + perPage;
    }
  }

  /** The page holding row `i` is among the listed page numbers. */
  lemma RowPageListed(n: nat, perPage: nat, i: nat)
    requires perPage > 0 && i < n
    ensures 1 <= i / perPage + 1 <= CeilDiv(n, perPage)
  {
    var q, c := i / perPage, CeilDiv(n, perPage);
    RowPageBounds(perPage, i);
    if q + 1 > c {
      MulMonotone(c, q, perPage);
    }
  }

  /** Row `i` is on page `i / perPage + 1`, at offset `i % perPage`. */
  lemma RowOnItsPage<T>(s: seq<T>, perPage: nat, i: nat)
    requires perPage > 0 && i < |s|
    ensures i % perPage < |Page(s, i / perPage + 1, perPage)|
    ensures Page(s, i / perPage + 1, perPage)[i % perPage] == s[i]
  {
    var q := i / perPage;
    RowPageBounds(perPage, i);
    assert i == q * perPage + i % perPage;
    assert (q + 1) * perPage == q * perPage + perPage;
    PageContents(s, q + 1, perPage);
    assert (q + 1 - 1) * perPage == q * perPage;
  }

  /**
   * Every row lies on exactly one page: the one numbered `i / perPage + 1`,
   * which is among the listed page numbers, at offset `i % perPage`.
   */
  lemma RowOnExactlyOnePage<T>(s: seq<T>, perPage: nat, i: nat, page: int)
    requires perPage > 0 && i < |s| && page >= 1
    ensures 1 <= i / perPage + 1 <= CeilDiv(|s|, perPage)
    ensures i % perPage < |Page(s, i / perPage + 1, perPage)|
    ensures Page(s, i / perPage + 1, perPage)[i % perPage] == s[i]
    ensures Min((page - 1) * perPage, |s|) <= i < Min(page * perPage, |s|) <==> page == i / perPage + 1
  {
    RowPageListed(|s|, perPage, i);
    RowOnItsPage(s, perPage, i);
    RowPageUnique(perPage, i, page);
  }

  /** The list in the opposite order. */
  function Reversed<T>(s: seq<T>): (r: seq<T>)
    ensures |r| == |s|
    ensures forall i :: 0 <= i < |s| ==> r[i] == s[|s| - 1 - i]
  {
    if s == [] then [] else [s[|s| - 1]] + Reversed(s[..|s| - 1])
  }

  /** Reversing is its own inverse. */
  lemma ReversedTwice<T>(s: seq<T>)
    ensures Reversed(Reversed(s)) == s
  {
  }

  /** Reversing keeps every row, as many times as it occurs. */
  lemma {:induction false} ReversedSameRows<T>(s: seq<T>)
    ensures multiset(Reversed(s)) == multiset(s)
  {
    if s != [] {
      var init := s[..|s| - 1];
      ReversedSameRows(init);
      assert Reversed(s) == [s[|s| - 1]] + Reversed(init);
      assert s == init + [s[|s| - 1]];
    }
  }

  /** `Array.prototype.reverse`: reverses the array in place. */
  method ReverseInPlace<T>(a: array<T>)
    modifies a
    ensures a[..] == Reversed(old(a[..]))
  {
    var lo, hi := 0, a.Length - 1;
    while lo < hi
      invariant 0 <= lo && lo + hi == a.Length - 1 && lo <= hi + 1
      invariant forall k :: 0 <= k < lo ==> a[k] == old(a[a.Length - 1 - k]) && a[a.Length - 1 - k] == old(a[k])
      invariant forall k :: lo <= k <= hi ==> a[k] == old(a[k])
    {
      a[lo], a[hi] := a[hi], a[lo];
      lo, hi := lo + 1, hi - 1;
    }
  }

  /** `Array.prototype.findIndex` on the row ids: the first row with `id`, or -1. */
  function FindIndex(rows: seq<TicketRow>, id: string): (r: int)
    ensures -1 <= r < |rows|
    ensures r >= 0 ==> rows[r].id == id && forall j :: 0 <= j < r ==> rows[j].id != id
    ensures r == -1 <==> forall j :: 0 <= j < |rows| ==> rows[j].id != id
  {
    if rows == [] then -1
    else if rows[0].id == id then 0
    else
      var r := FindIndex(rows[1..], id);
      if r == -1 then -1 else r + 1
  }

  /** The JavaScript values a page parameter can hold here. */
  datatype JsValue = Undefined | Num(n: int) | Str(text: string)

  /**
   * The free name `currentPage` that the page validation tests: no binding of
   * it is in scope there, so `typeof currentPage` is "undefined".
   */
  const UnboundCurrentPage: JsValue := Undefined

  /**
   * The page to show after loading. It tests the unbound `currentPage`
   * instead of its argument, so the fallback always wins and the page the
   * query names is never used.
   */
  function ValidatePage(page: JsValue): (r: JsValue)
    ensures r == Num(1)
  {
    if !UnboundCurrentPage.Num? then Num(1) else page
  }

  class FeedbacksPage {
    var feedbacks: seq<TicketRow>
    var currentFeedbacks: seq<TicketRow>
    var currentPage: int
    var totalPages: seq<int>
    const itemsPerPage: nat := 10

    constructor ()
      ensures feedbacks == [] && currentFeedbacks == [] && currentPage == 1 && totalPages == []
    {
      feedbacks := [];
      currentFeedbacks := [];
      currentPage := 1;
      totalPages := [];
    }

    /**
     * Appends the page numbers for `res` to the existing `totalPages` (it
     * does not replace them) and returns the whole list.
     */
    method CalcTotalPages(res: array<TicketRow>) returns (pages: seq<int>)
      modifies this`totalPages
      ensures totalPages == old(totalPages) + PageNumbers(CeilDiv(res.Length, itemsPerPage))
      ensures pages == totalPages
    {
      var i := 1;
      while i <= CeilDiv(res.Length, itemsPerPage)
        invariant 1 <= i <= CeilDiv(res.Length, itemsPerPage) + 1
        invariant totalPages == old(totalPages) + PageNumbers(i - 1)
      {
        totalPages := totalPages + [i];
        i := i + 1;
      }
      pages := totalPages;
    }

    /** Shows page `page` of the full list. */
    method OnPageChange(page: int)
      modifies this`currentPage, this`currentFeedbacks
      ensures currentPage == page
      ensures currentFeedbacks == Page(feedbacks, page, itemsPerPage)
    {
      var indexOfLastFeedback := page * itemsPerPage;
      var indexOfFirstFeedback := indexOfLastFeedback - itemsPerPage;
      currentFeedbacks := Slice(feedbacks, indexOfFirstFeedback, indexOfLastFeedback);
      currentPage := page;
    }

    /**
     * The list arrived: it is reversed in place and kept, its page numbers are
     * appended, and page 1 is shown whatever page `query` asks for.
     */
    method OnGetFeedbackSuccess(res: array<TicketRow>, query: JsValue)
      modifies this, res
      ensures res[..] == Reversed(old(res[..]))
      ensures feedbacks == res[..]
      ensures totalPages == old(totalPages) + PageNumbers(CeilDiv(res.Length, itemsPerPage))
      ensures currentPage == 1
      ensures currentFeedbacks == Page(feedbacks, 1, itemsPerPage)
    {
      ReverseInPlace(res);
      feedbacks := res[..];
      var pages := CalcTotalPages(res);
      totalPages := pages;
      OnPageChange(ValidatePage(query).n);
    }

    /**
     * Marks the first row of the current page with `id` as closed. Only that
     * row changes, and since rows are shared the full list sees it too;
     * closing an already closed row changes nothing.
     */
    method FeedbackClosed(id: string)
      requires FindIndex(currentFeedbacks, id) >= 0
      modifies currentFeedbacks[FindIndex(currentFeedbacks, id)]
      ensures currentFeedbacks[FindIndex(currentFeedbacks, id)].isClosed
      ensures forall r :: r in currentFeedbacks ==>
        r.isClosed == (old(r.isClosed) || r == currentFeedbacks[FindIndex(currentFeedbacks, id)])
      ensures forall r :: r in feedbacks ==>
        r.isClosed == (old(r.isClosed) || r == currentFeedbacks[FindIndex(currentFeedbacks, id)])
    {
      var index := FindIndex(currentFeedbacks, id);
      currentFeedbacks[index].isClosed := true;
    }
  }
}

=== FILE: ticket_view.dfy ===
/**
 * The client-side view of one support ticket's chat (FeedbackTicket.jsx):
 * the message list built from the REST snapshot, live pushes and the
 * user's own posts, and the "seen" read receipt of the latest message.
 */
module TicketView {
  import opened Wrappers

  /** Milliseconds since the epoch; the view only compares timestamps with `>=`. */
  type Timestamp = int

  datatype User = User(id: string, name: string)

  /** A chat message as the server returns it; `author` is its nullable `User` association. */
  datatype Message = Message(text: string, createdAt: Timestamp, author: Option<User>)

  /** The ticket record handed to the view. */
  datatype Feedback = Feedback(id: string, isClosed: bool, anonymLastSeenAt: Timestamp, userLastSeenAt: Timestamp)

  /** The two read-receipt columns of a ticket: the anonymous party's and the logged-in user's. */
  datatype SeenField = AnonymLastSeen | UserLastSeen

  /** The REST request that records "this party has looked at the ticket now". */
  datatype SeenUpdate = SeenUpdate(feedbackId: string, field: SeenField, at: Timestamp)

  /** The REST request that posts a new message; an empty `authorId` stands for the anonymous party. */
  datatype PostRequest = PostRequest(feedbackId: string, authorId: string, text: string)

  /** What a send attempt led to. */
  datatype SendOutcome = Skipped | Invalid(error: string) | Posted(request: PostRequest)

  function SeenAt(f: Feedback, field: SeenField): Timestamp
  {
    match field
    case AnonymLastSeen => f.anonymLastSeenAt
    case UserLastSeen => f.userLastSeenAt
  }

  /**
   * The latest message counts as seen when the other party's receipt is not
   * older than the message and the current user is its author.
   */
  function IsSeen(messageCreatedAt: Timestamp, latestAuthorName: string,
                  feedbackSeenAt: Timestamp, currentUser: string): (seen: bool)
    ensures seen ==> latestAuthorName == currentUser && feedbackSeenAt >= messageCreatedAt
    ensures feedbackSeenAt >= messageCreatedAt && latestAuthorName == currentUser ==> seen
  {
    feedbackSeenAt >= messageCreatedAt && latestAuthorName == currentUser
  }

  /** A receipt stays valid when the other party's last-seen time moves forward. */
  lemma IsSeenStable(createdAt: Timestamp, author: string, seenAt: Timestamp, later: Timestamp, current: string)
    requires IsSeen(createdAt, author, seenAt, current)
    requires seenAt <= later
    ensures IsSeen(createdAt, author, later, current)
  {
  }

  /** The other party's receipt is never reported on a message the current user did not write. */
  lemma IsSeenOnlyForOwnMessage(createdAt: Timestamp, author: string, seenAt: Timestamp, current: string)
    requires author != current
    ensures !IsSeen(createdAt, author, seenAt, current)
  {
  }

  /** A receipt older than the message never makes it seen. */
  lemma IsSeenNeedsFreshReceipt(createdAt: Timestamp, author: string, seenAt: Timestamp, current: string)
    requires seenAt < createdAt
    ensures !IsSeen(createdAt, author, seenAt, current)
  {
  }

  /** The name shown for a message's author: its user's name, or the anonymous user's. */
  function ResolveAuthorName(m: Message, anonymousUser: User): (name: string)
    ensures m.author.None? ==> name == anonymousUser.name
    ensures m.author.Some? ==> name == m.author.value.name
  {
    match m.author
    case Some(u) => u.name
    case None => anonymousUser.name
  }

  /** The column read when the view mounts: the OTHER party's receipt. */
  function MountSeenField(userName: string, defaultUsername: string): (field: SeenField)
    ensures field == AnonymLastSeen <==> userName != defaultUsername
  {
    if userName != defaultUsername then AnonymLastSeen else UserLastSeen
  }

  /**
   * The column written by the seen update: the party's OWN receipt, which is
   * always the column the same party does not read on mount.
   */
  function SeenPayloadKey(userName: string, defaultUsername: string): (key: SeenField)
    ensures key != MountSeenField(userName, defaultUsername)
    ensures key == UserLastSeen <==> userName != defaultUsername
  {
    if userName != defaultUsername then UserLastSeen else AnonymLastSeen
  }

  /**
   * Between a logged-in party and the anonymous party, each one reads on mount
   * exactly the column the other one writes.
   */
  lemma SeenColumnsCross(writer: string, reader: string, defaultUsername: string)
    requires (writer == defaultUsername) != (reader == defaultUsername)
    ensures SeenPayloadKey(writer, defaultUsername) == MountSeenField(reader, defaultUsername)
  {
  }

  /** `part` occurs in `s` starting at index `i`. */
  predicate OccursAt(s: string, part: string, i: nat)
  {
    i + |part| <= |s| && s[i..i + |part|] == part
  }

  /** When `part` does not start `s`, it occurs in `s` exactly when it occurs in the tail of `s`. */
  lemma OccursInTail(s: string, part: string)
    requires |s| > 0 && !OccursAt(s, part, 0)
    ensures (exists i: nat :: OccursAt(s, part, i)) <==> (exists j: nat :: OccursAt(s[1..], part, j))
  {
    if exists i: nat :: OccursAt(s, part, i) {
      var i: nat :| OccursAt(s, part, i);
      assert s[1..][i - 1..i - 1 + |part|] == s[i..i + |part|];
      assert OccursAt(s[1..], part, i - 1);
    }
    if exists j: nat :: OccursAt(s[1..], part, j) {
      var j: nat :| OccursAt(s[1..], part, j);
      assert s[1..][j..j + |part|] == s[j + 1..j + 1 + |part|];
      assert OccursAt(s, part, j + 1);
    }
  }

  /**
   * JavaScript's `String.prototype.includes`, scanning from the left: it
   * holds exactly when `part` occurs somewhere in `s`.
   */
  function Includes(s: string, part: string): (found: bool)
    ensures found <==> exists i: nat :: OccursAt(s, part, i)
    decreases |s|
  {
    if |s| < |part| then false
    else if s[..|part|] == part then
      assert OccursAt(s, part, 0) by { assert s[0..|part|] == s[..|part|]; }
      true
    else
      assert !OccursAt(s, part, 0) by { assert s[0..|part|] == s[..|part|]; }
      OccursInTail(s, part);
      Includes(s[1..], part)
  }

  const FailedToFetch := "Failed to fetch"

  /** A snapshot of every field of the view's component state. */
  datatype TicketState = TicketState(
    messages: seq<Message>,
    inputMessage: string,
    latestAuthorName: string,
    user: User,
    isMessageSubmitting: bool,
    seen: bool,
    isAuthorCurrentClient: bool,
    error: string,
    socketConnected: bool)

  class FeedbackTicket {
    /** The ticket this view shows (its `feedback` prop). */
    const feedback: Feedback
    /** The collaborator constants ANONYMOUS_USER, DEFAULT_USERNAME and DEFAULT_USER_ID. */
    const anonymousUser: User
    const defaultUsername: string
    const defaultUserId: string
    /** What `getCurrentUser()` returns while the view is open. */
    const sessionUser: Option<User>
    /** `validateInputMessage`: an error text, or "" when the text is acceptable. */
    const validateInputMessage: string -> string

    var messages: seq<Message>
    var inputMessage: string
    var latestAuthorName: string
    var user: User
    var isMessageSubmitting: bool
    var seen: bool
    var isAuthorCurrentClient: bool
    var error: string
    /** Whether the live socket stored in the state is connected. */
    var socketConnected: bool

    ghost function State(): TicketState
      reads this
    {
      TicketState(messages, inputMessage, latestAuthorName, user, isMessageSubmitting,
                  seen, isAuthorCurrentClient, error, socketConnected)
    }

    /**
     * The view's invariant: `latestAuthorName` names the author of the last
     * message shown, and a message is only ever marked seen when the current
     * user wrote it.
     */
    ghost predicate Valid()
      reads this
    {
      && (messages == [] ==> latestAuthorName == "")
      && (messages != [] ==> latestAuthorName == ResolveAuthorName(messages[|messages| - 1], anonymousUser))
      && (seen ==> latestAuthorName == ResolveCurrentUser().name)
    }

    /** The initial component state. */
    constructor (feedback: Feedback, anonymousUser: User, defaultUsername: string, defaultUserId: string,
                 sessionUser: Option<User>, validateInputMessage: string -> string)
      ensures this.feedback == feedback && this.anonymousUser == anonymousUser
      ensures this.defaultUsername == defaultUsername && this.defaultUserId == defaultUserId
      ensures this.sessionUser == sessionUser && this.validateInputMessage == validateInputMessage
      ensures State() == TicketState([], "", "", User("", ""), false, false, false, "", false)
      ensures Valid()
    {
      this.feedback := feedback;
      this.anonymousUser := anonymousUser;
      this.defaultUsername := defaultUsername;
      this.defaultUserId := defaultUserId;
      this.sessionUser := sessionUser;
      this.validateInputMessage := validateInputMessage;
      messages := [];
      inputMessage := "";
      latestAuthorName := "";
      user := User("", "");
      isMessageSubmitting := false;
      seen := false;
      isAuthorCurrentClient := false;
      error := "";
      socketConnected := false;
    }

    /** The logged-in user, or the anonymous user when nobody is logged in. */
    function ResolveCurrentUser(): (u: User)
      ensures sessionUser.None? ==> u == anonymousUser
      ensures sessionUser.Some? ==> u == sessionUser.value
    {
      match sessionUser
      case Some(u) => u
      case None => anonymousUser
    }

    /** Installs the REST snapshot: messages, author of the last one and its seen flag. */
    method UpdateMountState(current: User, snapshot: seq<Message>)
      requires |snapshot| > 0
      modifies this
      ensures
        var last := snapshot[|snapshot| - 1];
        var author := ResolveAuthorName(last, anonymousUser);
        State() == old(State()).(
          user := current,
          messages := snapshot,
          latestAuthorName := author,
          seen := IsSeen(last.createdAt, author,
                         SeenAt(feedback, MountSeenField(current.name, defaultUsername)), current.name),
          socketConnected := true,
          error := "")
      ensures current == ResolveCurrentUser() ==> Valid()
    {
      var last := snapshot[|snapshot| - 1];
      var author := ResolveAuthorName(last, anonymousUser);
      user := current;
      messages := snapshot;
      latestAuthorName := author;
      seen := IsSeen(last.createdAt, author,
                     SeenAt(feedback, MountSeenField(current.name, defaultUsername)), current.name);
      socketConnected := true;
      error := "";
    }

    /** The seen update this party sends: its own receipt column, stamped `now`. */
    method UpdateSeenInfo(now: Timestamp) returns (request: SeenUpdate)
      ensures request.feedbackId == feedback.id && request.at == now
      ensures request.field == SeenPayloadKey(ResolveCurrentUser().name, defaultUsername)
      ensures request.field != MountSeenField(ResolveCurrentUser().name, defaultUsername)
    {
      var current := ResolveCurrentUser();
      request := SeenUpdate(feedback.id, SeenPayloadKey(current.name, defaultUsername), now);
    }

    /** Mounting: install the snapshot for the current user, then send the seen update. */
    method ComponentDidMount(snapshot: seq<Message>, now: Timestamp) returns (request: SeenUpdate)
      requires |snapshot| > 0
      modifies this
      ensures Valid()
      ensures
        var current := ResolveCurrentUser();
        var last := snapshot[|snapshot| - 1];
        var author := ResolveAuthorName(last, anonymousUser);
        State() == old(State()).(
          user := current,
          messages := snapshot,
          latestAuthorName := author,
          seen := IsSeen(last.createdAt, author,
                         SeenAt(feedback, MountSeenField(current.name, defaultUsername)), current.name),
          socketConnected := true,
          error := "")
      ensures request == SeenUpdate(feedback.id, SeenPayloadKey(ResolveCurrentUser().name, defaultUsername), now)
    {
      UpdateMountState(ResolveCurrentUser(), snapshot);
      request := UpdateSeenInfo(now);
    }

    /**
     * A live push of a message. Until this client has posted a message of its
     * own, the push is appended; afterwards every push is ignored.
     */
    method OnChatMessageReceived(data: Message)
      requires Valid()
      modifies this
      ensures Valid()
      ensures old(isAuthorCurrentClient) ==> State() == old(State())
      ensures !old(isAuthorCurrentClient) ==>
        State() == old(State()).(
          messages := old(messages) + [data],
          isMessageSubmitting := false,
          seen := false,
          latestAuthorName := ResolveAuthorName(data, anonymousUser))
    {
      if !isAuthorCurrentClient {
        messages := messages + [data];
        latestAuthorName := ResolveAuthorName(data, anonymousUser);
        isMessageSubmitting := false;
        seen := false;
      }
    }

    /** An error pushed on this party's own channel: drop the socket and unlock the input. */
    method OnChatErrorReceived(pushedError: string)
      requires Valid()
      modifies this
      ensures Valid()
      ensures State() == old(State()).(socketConnected := false, isMessageSubmitting := false)
    {
      socketConnected := false;
      isMessageSubmitting := false;
    }

    /**
     * A "seen" push: marks the latest message seen when the other party saw it
     * and the current user wrote it; nothing else changes.
     */
    method OnSeenReceived(pusher: User, date: Timestamp)
      requires Valid()
      modifies this
      ensures Valid()
      ensures
        var current := ResolveCurrentUser();
        if pusher.name != current.name && old(latestAuthorName) == current.name
        then State() == old(State()).(seen := true)
        else State() == old(State())
    {
      var current := ResolveCurrentUser();
      if pusher.name != current.name && latestAuthorName == current.name {
        seen := true;
      }
    }

    /** A failed socket emission after the seen update: drop the socket. */
    method OnEmitSeenError()
      requires Valid()
      modifies this
      ensures Valid()
      ensures State() == old(State()).(socketConnected := false)
    {
      socketConnected := false;
    }

    /** A failed seen update: a network failure is ignored, anything else is shown. */
    method OnUpdateSeenError(message: string)
      requires Valid()
      modifies this
      ensures Valid()
      ensures (exists i: nat :: OccursAt(message, FailedToFetch, i)) ==> State() == old(State())
      ensures !(exists i: nat :: OccursAt(message, FailedToFetch, i)) ==> State() == old(State()).(error := message)
    {
      if !Includes(message, FailedToFetch) {
        error := message;
      }
    }

    /** The input field's change handler. */
    method OnInputChange(value: string)
      requires Valid()
      modifies this
      ensures Valid()
      ensures State() == old(State()).(inputMessage := value)
    {
      inputMessage := value;
    }

    /**
     * Submitting the form: an empty input does nothing, a rejected input shows
     * the validation error, any other input locks the form and is posted, with
     * an empty author id for the default user.
     */
    method OnSendMessage() returns (outcome: SendOutcome)
      requires Valid()
      modifies this
      ensures Valid()
      ensures old(inputMessage) == "" ==> outcome == Skipped && State() == old(State())
      ensures old(inputMessage) != "" && validateInputMessage(old(inputMessage)) != "" ==>
        outcome == Invalid(validateInputMessage(old(inputMessage)))
        && State() == old(State()).(error := validateInputMessage(old(inputMessage)))
      ensures old(inputMessage) != "" && validateInputMessage(old(inputMessage)) == "" ==>
        outcome == Posted(PostRequest(feedback.id, if user.id == defaultUserId then "" else user.id, inputMessage))
        && State() == old(State()).(isMessageSubmitting := true)
    {
      if inputMessage == "" {
        return Skipped;
      }
      var problem := validateInputMessage(inputMessage);
      if problem != "" {
        error := problem;
        return Invalid(problem);
      }
      isMessageSubmitting := true;
      var authorId := if user.id == defaultUserId then "" else user.id;
      outcome := Posted(PostRequest(feedback.id, authorId, inputMessage));
    }

    /** The posted message with a missing author replaced by the anonymous user. */
    function WithAuthor(res: Message): (m: Message)
      ensures m.author.Some? && m.text == res.text && m.createdAt == res.createdAt
      ensures res.author.Some? ==> m == res
      ensures res.author.None? ==> m == res.(author := Some(anonymousUser))
      ensures ResolveAuthorName(m, anonymousUser) == ResolveAuthorName(res, anonymousUser)
    {
      if res.author.None? then res.(author := Some(anonymousUser)) else res
    }

    /**
     * The post succeeded: append the returned message (author defaulted), clear
     * the input, unlock it, and remember that this client is now an author.
     * The appended message is also what is emitted on the ticket's channel.
     */
    method OnPostFeedbackMessageSuccess(res: Message) returns (emitted: Message)
      requires Valid()
      modifies this
      ensures Valid()
      ensures emitted == WithAuthor(res)
      ensures State() == old(State()).(
        messages := old(messages) + [emitted],
        isMessageSubmitting := false,
        isAuthorCurrentClient := true,
        seen := false,
        latestAuthorName := ResolveAuthorName(emitted, anonymousUser),
        inputMessage := "")
    {
      emitted := WithAuthor(res);
      messages := messages + [emitted];
      latestAuthorName := ResolveAuthorName(messages[|messages| - 1], anonymousUser);
      isMessageSubmitting := false;
      isAuthorCurrentClient := true;
      seen := false;
      inputMessage := "";
    }

    /** The post failed: show its message, unlock the input, keep the messages. */
    method OnPostFeedbackMessageError(message: string)
      requires Valid()
      modifies this
      ensures Valid()
      ensures State() == old(State()).(error := message, isMessageSubmitting := false)
    {
      error := message;
      isMessageSubmitting := false;
    }
  }
}

=== FILE: wrappers.dfy ===
/** Optional values, standing in for the source's nullable fields. */
module Wrappers {

  datatype Option<+T> = None | Some(value: T)
}
